=== FILE: README.md ===
# Climate pledge wall — Dafny model

A model of the pledge-list logic of the climate-action pledge widget
(`script.js`). Its DOM event handlers become pure operations on a sequence of
pledge records:

- **Startup seeding.** The value stored under `climatePledges` is read. A missing or empty list becomes the three example records `PLEDGE1001`–`PLEDGE1003`, and those are written back.
- **Submit.** A draft with no commitment is refused and nothing changes. Otherwise a record with id `PLEDGE` + (1000 + length + 1) and the given date is pushed, and the whole list is written to storage.
- **Counters.** These are the total, the `Student` count and the `Working Professional` count.
- **Filter.** The profile and state menus each take `all` or an exact value, and the two are combined with AND.
- **Wall pagination.** Pages hold 10 records and are counted from 1. The slice follows `Array.prototype.slice`, the page count is `Math.ceil(n / 10)`, and the button row appears only for more than one page.
- **Star rating.** It is `min(|commitments|, 5)`.

Files:

- `pledges.dfy` (module `Pledges`): the `Pledge` record, the form `Draft`, the constants and the star rating.
- `selection.dfy` (module `Selection`): `Array.prototype.filter` as `Keep` over a first-order `Criterion`. It proves that the result is exactly the in-order subsequence of matching records.
- `wall.dfy` (module `Wall`): counters, the filter chain, the JavaScript slice, pages, the page count, the button loop, a rendering of one page, and the wall's view state (shown list and page).
- `store.dfy` (module `Store`): storage, startup, submit, and whole sessions of submits.
- `scenarios.dfy` (module `Scenarios`): concrete runs from empty storage.

Modelling choices:

- A record's id is modelled as the number after the fixed `PLEDGE` prefix. For example, `PLEDGE1004` is `id == 1004`.
- Local storage is modelled as its decoded value: `Absent` or `Stored(list)`. A JSON round trip of the list is taken to give back the list.
- The submission date is a parameter.
- Field names follow the code: `state` and `profile`.

Behaviour of the code that the model keeps as it is:

- The profile the second counter looks for is `'Working Professional'`, with a space (script.js:59, script.js:81).
- The stored value is decoded with `JSON.parse` at script.js:38 without a guard. Malformed data throws; it does not fall back to the seeds (see Left out).
- The submission date is the UTC calendar date taken from `toISOString` (script.js:179).
- After a submission the code re-renders the unfiltered list at page 1 (script.js:188), even when filters are selected. `Store.SubmitShowsWholeList` states this.

## Model

| member | source | states |
|---|---|---|
| Pledges.Stars | script.js:211-212 | The rating is the smaller of the commitment count and 5. It is at least 1 whenever there is a commitment. |
| Pledges.StarText | script.js:212 | The rating text repeats the star character exactly as many times as the record's rating. |
| Selection.Keep | script.js:143-147 | The filtered list is no longer than the input. A record is in it exactly when it is in the input and satisfies the predicate. |
| Selection.KeepIsMatchingSubsequence | script.js:140-148 | A list equals the filter's result if and only if it lists, at strictly increasing positions, exactly the positions whose record matches. |
| Selection.KeepChain | script.js:142-148 | Filtering by profile and then by state is one filter by the conjunction of both predicates. |
| Selection.KeepIdempotent | script.js:143 | Filtering an already filtered list by the same predicate returns it unchanged. |
| Selection.CountDisjoint | script.js:80-81 | For two predicates that no record meets together, the two counts add up to at most the list length. |
| Wall.ComputeKpis | script.js:78-81 | The total equals the list length, and students plus professionals is at most the total. |
| Wall.KpisAfterPush | script.js:79-81 | Pushing a record adds 1 to the total. It adds 1 to the counter of the record's own profile and leaves the other profile counter unchanged. |
| Wall.FilterPledges | script.js:136-150 | The chain equals one filter by "profile menu AND state menu". Its members are exactly the input records that pass both menus. `all`/`all` returns the list unchanged. |
| Wall.FilterIdempotent | script.js:140-148 | Re-applying the same two menus to a filtered list changes nothing. |
| Wall.FilterIsMatchingSubsequence | script.js:140-148 | The filtered list is exactly the in-order subsequence of records passing both menus, in both directions. |
| Wall.RowOf | script.js:102-109 | The values put into a table row's cells are the record's id, name, date, state and profile, followed by its star text, which has exactly as many stars as the record's rating. |
| Wall.JsSlice | script.js:93 | The slice is never longer than the list. For non-negative bounds it is the list clipped to `[start, end)`. |
| Wall.TotalPages | script.js:94 | The page count is the least `t` with `n <= 10 t`, which is 0 exactly for the empty list. |
| Wall.Page | script.js:89-93 | For page p >= 1, the page is exactly the list clipped to `[(p-1)*10, p*10)`, item k being record `(p-1)*10 + k`. It has at most 10 items. It is empty past the page count, non-empty within it, and full before the last page. |
| Wall.PagesUpToPrefix | script.js:91-93 | Pages 1 to k together are the first `10 k` records, clipped to the list. |
| Wall.AllPagesRebuildList | script.js:89-94 | Concatenating pages 1 to the page count gives back the whole list. |
| Wall.RenderPagination | script.js:118-132 | There are no buttons for one page or fewer. Otherwise there is one button per page, numbered 1 to the page count, and only the current page's button is active. |
| Wall.RenderPledgeWall | script.js:89-132 | Row k of page p shows record `(p-1)*10 + k`, with at most 10 rows. Rows are empty past the last page. Buttons exist exactly when there is more than one page, one per page. They are numbered 1 to the page count, and only the current page's button is active. |
| Wall.OnFilterChange | script.js:136-155 | A filter change shows page 1 of the filtered list itself. That list is the in-order subsequence, at strictly increasing positions, of exactly the records passing both menus. |
| Wall.OnPageClick | script.js:119-128 | A button keeps the list it was rendered for and moves to its page, which is never empty and has at most 10 records. |
| Wall.Unfiltered | script.js:89 | With its default arguments the wall shows page 1 of the `all`/`all` view of the whole list. |
| Store.Loaded | script.js:38 | A missing entry reads as the empty list, and a stored list reads as itself. |
| Store.Startup | script.js:38-75 | A missing or empty stored list yields exactly the seeds, and storage then holds them. A non-empty stored list is used as is, with storage untouched. Afterwards memory and storage agree and there is at least one record. |
| Store.StartupStable | script.js:38-75 | Starting again from what startup left in storage gives the same state. |
| Store.SeedsWellFormed | script.js:42-73 | There are three seeds, with ids 1001–1003 in position order. Each has three commitments, so three stars. |
| Store.NewPledge | script.js:171-180 | The new record's id is `1000 + count + 1`. It carries the draft's name, email, phone, state, profile and commitments, and the given date. |
| Store.Submit | script.js:160-184 | A submission is refused exactly when no commitment is selected. Otherwise the list grows by one and the earlier records are unchanged. The new last record is the one built from the draft and date, with id `1000 + old length + 1`, the given commitments and at least one star. Storage holds the whole new list. |
| Store.SubmitShowsWholeList | script.js:186-188 | After an accepted submission the wall shows page 1 of the whole new list, with the new record last, whatever filters were selected. |
| Store.Step | script.js:165-184 | A refused submission leaves the list and storage unchanged. An accepted one pushes the new record and leaves storage equal to memory. |
| Store.StepPreservesInvariants | script.js:171-183 | If ids match positions and every record has a commitment, a submission keeps both true. |
| Store.WellNumberedUnique | script.js:172 | Ids derived from positions are pairwise distinct. |
| Store.CommittedStars | script.js:108 | Every record of a list where each has a commitment rates 1 to 5 stars. |
| Store.SubmitUpdatesKpis | script.js:183-187 | An accepted submission adds 1 to the total and 1 to the counter of the draft's profile. |
| Store.ReplayAppendsOnly | script.js:160-184 | Over any run of submissions, the list grows by exactly the number of accepted ones and never changes earlier records. Storage stays equal to memory. |
| Store.ReplayPreservesInvariants | script.js:160-184 | Over any run of submissions, ids stay derived from positions (hence unique) and every record keeps a commitment. |
| Store.SessionFromEmptyStorage | script.js:38-184 | From empty storage, any session holds the seeds followed by one record per accepted submission. Ids come from positions, every record has a commitment, and storage equals memory. |
| Scenarios.FirstVisitSeeds | script.js:38-75 | Both empty storage and a stored empty list start as the three seeds (Assam, Karnataka, Manipur) written back. The counters read 3, 1, 1. |
| Scenarios.StudentRecyclesAfterSeeds | script.js:160-187 | After the seeds, a student pledging `Recycle` gets id 1004 and one star. The student counter becomes 2, and storage holds the seeds plus the new record. |
| Scenarios.NoCommitmentRefused | script.js:165-168 | An empty checklist is refused, and the seeded state is left as it was. |
| Scenarios.FarPageOfSeeds | script.js:89-94 | Page 99 of the three seeds renders no rows and no buttons, without error, and the page count is 1. |

## Left out

- DOM plumbing: the hamburger menu, smooth scrolling, the creation of table and button elements, and `toLocaleString` formatting of the counters. These are presentation only, apart from the unescaped row markup described in the `Wall.RowOf` line below.
- The certificate panel: setting its text, showing it and scrolling to it. Only its star count is modelled (`Pledges.Stars`, `Pledges.StarText`).
- `downloadCertificate`: it calls `html2canvas`, a foreign library, and triggers a browser download.
- `shareCertificate` and `fallbackShare`: they use the platform's asynchronous Web Share, clipboard and `prompt` interfaces through promise callbacks.
- JSON serialisation and the text form of ids. Storage is its decoded value, and the id is its numeric suffix.
- Malformed stored data. The code has no fallback: `JSON.parse` throws at startup, so no path is modelled.
- The clock. The submission date is a parameter, standing for the UTC ISO date the code takes from `new Date()`.
- A submission with no profile radio button checked. The code would throw when reading `.value` of `null`; the draft always carries a profile string.
- Failed storage writes. Every write to `climatePledges` is assumed to succeed, so `Store.Synced` holds after `Store.Startup`, `Store.Submit` and `Store.Step`, and through the session lemmas. In the code, `localStorage.setItem` can throw, for example when the quota is exceeded. At script.js:183-184 the record is pushed before the write. A failed write would leave memory holding the new record and storage holding the old list, and the counter, wall and certificate updates (script.js:187-191) would be skipped. A failed seed write at script.js:74 would end the page's setup before any handler is attached. Neither failure is modelled.
- Wall.RowOf: models the field values the row template puts into its cells, not the cells a browser parses from them. The template at script.js:102-109 interpolates the fields into `row.innerHTML` without escaping. A field containing markup is parsed as HTML: a name such as `x</td><td>y` adds cells, and an element with an event-handler attribute runs script. The record is stored, so such a script runs again on every later load (script.js:38, script.js:295). HTML parsing is not modelled.
- Other writers of storage. `App` owns the `climatePledges` entry, so `Store.Synced` and the session lemmas assume that only this page instance writes it. Every tab of the origin shares that entry. The code reads it once (script.js:38) and overwrites the whole list on each submission (script.js:184). So a second open tab's records would be lost, and two tabs could both issue the same id. That interleaving is not modelled.
- Pages below 1. `Wall.Page` accepts any integer with the slice's own handling of negative bounds, but its properties are stated for `page >= 1`. Page numbers come only from the default `1` and from buttons 1 to `totalPages`.

=== FILE: pledges.dfy ===
/** The pledge record the widget stores, the draft the form supplies, and the
    star rating shown for a record on the wall and on the certificate. */
module Pledges {

  /** Value of a filter menu that lets every record through. */
  const ALL: string := "all"

  /** The profile values the counters look for (note the space in the second). */
  const STUDENT: string := "Student"
  const WORKING_PROFESSIONAL: string := "Working Professional"
  const OTHER: string := "Other"

  /** Star ratings are capped at this many stars. */
  const MAX_STARS: nat := 5

  /** Ids are `PLEDGE` followed by ID_BASE + position + 1. */
  const ID_BASE: nat := 1000

  /** The single character the rating repeats (U+2B50, one UTF-16 unit). */
  const STAR: char := '\U{2B50}'

  /** One stored pledge. `id` holds the number after the fixed `PLEDGE`
      prefix of the record's id string (`PLEDGE1001` is `id == 1001`). */
  datatype Pledge = Pledge(
    id: nat,
    name: string,
    email: string,
    phone: string,
    state: string,
    profile: string,
    commitments: seq<string>,
    date: string
  )

  /** What the form supplies at submission time: every field except the id
      and the date, which the submit handler adds. */
  datatype Draft = Draft(
    name: string,
    email: string,
    phone: string,
    state: string,
    profile: string,
    commitments: seq<string>
  )

  function Min(a: int, b: int): (m: int)
    ensures m <= a && m <= b
    ensures m == a || m == b
  {
    if a <= b then a else b
  }

  /** `Math.min(pledge.commitments.length, 5)`: one star per commitment, at
      most five. */
  function Stars(p: Pledge): (r: nat)
    ensures r <= MAX_STARS && r <= |p.commitments|
    ensures r == MAX_STARS || r == |p.commitments|
    ensures |p.commitments| >= 1 ==> 1 <= r
  {
    Min(|p.commitments|, MAX_STARS)
  }

  /** The rating text `'⭐'.repeat(stars)`. */
  function StarText(p: Pledge): (t: string)
    ensures |t| == Stars(p)
    ensures forall i :: 0 <= i < |t| ==> t[i] == STAR
  {
    seq(Stars(p), _ => STAR)
  }
}

=== FILE: scenarios.dfy ===
/** Concrete runs of the widget from empty storage. */
module Scenarios {
  import opened Pledges
  import opened Selection
  import opened Wall
  import opened Store

  /** A first visit: nothing stored, so the three seeds are shown and
      written back; a stored empty list is treated the same way. */
  lemma FirstVisitSeeds()
    ensures Startup(Absent) == App(SEEDS, Stored(SEEDS))
    ensures Startup(Stored([])) == App(SEEDS, Stored(SEEDS))
    ensures [SEEDS[0].id, SEEDS[1].id, SEEDS[2].id] == [1001, 1002, 1003]
    ensures [SEEDS[0].state, SEEDS[1].state, SEEDS[2].state] == ["Assam", "Karnataka", "Manipur"]
    ensures ComputeKpis(SEEDS) == Kpis(3, 1, 1)
  {
    KeepPush([SEEDS[0]], SEEDS[1], ProfileIs(STUDENT));
    KeepPush([SEEDS[0], SEEDS[1]], SEEDS[2], ProfileIs(STUDENT));
    KeepPush([SEEDS[0]], SEEDS[1], ProfileIs(WORKING_PROFESSIONAL));
    KeepPush([SEEDS[0], SEEDS[1]], SEEDS[2], ProfileIs(WORKING_PROFESSIONAL));
    assert [SEEDS[0], SEEDS[1]] + [SEEDS[2]] == SEEDS;
  }

  /** A student pledging one commitment after the seeds gets PLEDGE1004,
      one star, and raises the student counter from 1 to 2. */
  lemma StudentRecyclesAfterSeeds(name: string, email: string, phone: string, state: string, date: string)
    ensures var draft := Draft(name, email, phone, state, STUDENT, ["Recycle"]);
      var r := Submit(Startup(Absent), draft, date);
      && r.Ok?
      && r.value.pledge.id == 1004
      && Stars(r.value.pledge) == 1
      && ComputeKpis(r.value.app.pledges).students == 2
      && r.value.app.storage == Stored(SEEDS + [r.value.pledge])
  {
    var draft := Draft(name, email, phone, state, STUDENT, ["Recycle"]);
    FirstVisitSeeds();
    SubmitUpdatesKpis(Startup(Absent), draft, date);
  }

  /** An empty checklist is refused and the seeded state stays as it was. */
  lemma NoCommitmentRefused(draft: Draft, date: string)
    requires draft.commitments == []
    ensures Submit(Startup(Absent), draft, date) == Err(NoCommitmentSelected)
    ensures Step(Startup(Absent), draft, date) == App(SEEDS, Stored(SEEDS))
  {
  }

  /** Page 99 of the three seeds is empty, without error, and one page
      needs no buttons. */
  method FarPageOfSeeds() returns (view: Rendering)
    ensures TotalPages(|SEEDS|) == 1
    ensures view.rows == [] && view.buttons == []
  {
    view := RenderPledgeWall(SEEDS, 99);
  }
}

=== FILE: selection.dfy ===
/** `Array.prototype.filter` over pledge lists, with the record predicates the
    widget uses written as a first-order `Criterion`. Everything the wall
    derives from the list (counters, filtered views) is built from `Keep`. */
module Selection {
  import opened Pledges

  /** The record predicates of the source: match everything, an exact
      `profile`, an exact `state`, or both of two criteria. */
  datatype Criterion =
    | Any
    | ProfileIs(profile: string)
    | StateIs(state: string)
    | Both(left: Criterion, right: Criterion)

  predicate Holds(c: Criterion, p: Pledge)
  {
    match c
    case Any => true
    case ProfileIs(v) => p.profile == v
    case StateIs(v) => p.state == v
    case Both(l, r) => Holds(l, p) && Holds(r, p)
  }

  /** The records of `s` that satisfy `c`, in their original order. */
  function Keep(s: seq<Pledge>, c: Criterion): (r: seq<Pledge>)
    ensures |r| <= |s|
    ensures forall x :: x in r <==> x in s && Holds(c, x)
    decreases |s|
  {
    if |s| == 0 then []
    else
      var last := s[|s| - 1];
      Keep(s[..|s| - 1], c) + (if Holds(c, last) then [last] else [])
  }

  /** `filter(...).length`. */
  function Count(s: seq<Pledge>, c: Criterion): (n: nat)
    ensures n <= |s|
  {
    |Keep(s, c)|
  }

  /** Keeping from a concatenation keeps from each part. */
  lemma {:induction false} KeepAppend(a: seq<Pledge>, b: seq<Pledge>, c: Criterion)
    ensures Keep(a + b, c) == Keep(a, c) + Keep(b, c)
    decreases |b|
  {
    if |b| == 0 {
      assert a + b == a;
    } else {
      var b' := b[..|b| - 1];
      assert (a + b)[..|a + b| - 1] == a + b';
      assert (a + b)[|a + b| - 1] == b[|b| - 1];
      KeepAppend(a, b', c);
    }
  }

  /** Pushing one record onto the list adds it to the kept records exactly
      when it satisfies the criterion. */
  lemma KeepPush(s: seq<Pledge>, p: Pledge, c: Criterion)
    ensures Keep(s + [p], c) == Keep(s, c) + (if Holds(c, p) then [p] else [])
    ensures Count(s + [p], c) == Count(s, c) + (if Holds(c, p) then 1 else 0)
  {
    assert (s + [p])[..|s|] == s;
  }

  /** When every record satisfies the criterion, nothing is dropped. */
  lemma {:induction false} KeepAll(s: seq<Pledge>, c: Criterion)
    requires forall i :: 0 <= i < |s| ==> Holds(c, s[i])
    ensures Keep(s, c) == s
    decreases |s|
  {
    if |s| > 0 {
      KeepAll(s[..|s| - 1], c);
      assert s[..|s| - 1] + [s[|s| - 1]] == s;
    }
  }

  lemma KeepAny(s: seq<Pledge>)
    ensures Keep(s, Any) == s
  {
    KeepAll(s, Any);
  }

  /** Filtering twice by the same criterion is filtering once. */
  lemma KeepIdempotent(s: seq<Pledge>, c: Criterion)
    ensures Keep(Keep(s, c), c) == Keep(s, c)
  {
    var r := Keep(s, c);
    forall i | 0 <= i < |r|
      ensures Holds(c, r[i])
    {
      assert r[i] in r;
    }
    KeepAll(r, c);
  }

  /** Chaining two filters is one filter by the conjunction. */
  lemma {:induction false} KeepChain(s: seq<Pledge>, a: Criterion, b: Criterion)
    ensures Keep(Keep(s, a), b) == Keep(s, Both(a, b))
    decreases |s|
  {
    if |s| > 0 {
      var s' := s[..|s| - 1];
      var last := s[|s| - 1];
      KeepChain(s', a, b);
      KeepAppend(Keep(s', a), if Holds(a, last) then [last] else [], b);
      if Holds(a, last) {
        KeepPush([], last, b);
      }
    }
  }

  /** Two criteria that no record satisfies at once select, together, no
      more records than the list holds. */
  lemma {:induction false} CountDisjoint(s: seq<Pledge>, a: Criterion, b: Criterion)
    requires forall p :: !(Holds(a, p) && Holds(b, p))
    ensures Count(s, a) + Count(s, b) <= |s|
    decreases |s|
  {
    if |s| > 0 {
      var s' := s[..|s| - 1];
      var last := s[|s| - 1];
      CountDisjoint(s', a, b);
      assert s' + [last] == s;
      KeepPush(s', last, a);
      KeepPush(s', last, b);
    }
  }

  /** `a` is strictly increasing. */
  ghost predicate Increasing(a: seq<int>)
  {
    forall k, l :: 0 <= k < l < |a| ==> a[k] < a[l]
  }

  /** `idx` lists, in increasing order, exactly the positions of `s` whose
      record satisfies `c`, and `r` holds the records at those positions. */
  ghost predicate EnumeratesMatches(s: seq<Pledge>, c: Criterion, idx: seq<int>, r: seq<Pledge>)
  {
    && |idx| == |r|
    && (forall k :: 0 <= k < |idx| ==> 0 <= idx[k] < |s| && r[k] == s[idx[k]])
    && Increasing(idx)
    && (forall i :: 0 <= i < |s| ==> (Holds(c, s[i]) <==> i in idx))
  }

  /** The positions of the records `Keep` retains. */
  ghost function Positions(s: seq<Pledge>, c: Criterion): (idx: seq<int>)
    decreases |s|
  {
    if |s| == 0 then []
    else
      Positions(s[..|s| - 1], c) + (if Holds(c, s[|s| - 1]) then [|s| - 1] else [])
  }

  lemma {:induction false} PositionsInRange(s: seq<Pledge>, c: Criterion)
    ensures |Positions(s, c)| == |Keep(s, c)|
    ensures forall k :: 0 <= k < |Positions(s, c)| ==> 0 <= Positions(s, c)[k] < |s|
    decreases |s|
  {
    if |s| > 0 {
      PositionsInRange(s[..|s| - 1], c);
    }
  }

  lemma {:induction false} PositionsIncreasing(s: seq<Pledge>, c: Criterion)
    ensures Increasing(Positions(s, c))
    decreases |s|
  {
    if |s| > 0 {
      var s' := s[..|s| - 1];
      PositionsIncreasing(s', c);
      PositionsInRange(s', c);
      var idx', idx := Positions(s', c), Positions(s, c);
      forall k, l | 0 <= k < l < |idx|
        ensures idx[k] < idx[l]
      {
        assert idx[k] == idx'[k];
        if l < |idx'| {
          assert idx[l] == idx'[l];
        }
      }
    }
  }

  lemma {:induction false} PositionsSelect(s: seq<Pledge>, c: Criterion)
    ensures |Positions(s, c)| == |Keep(s, c)|
    ensures forall k :: 0 <= k < |Positions(s, c)| ==>
      0 <= Positions(s, c)[k] < |s| && Keep(s, c)[k] == s[Positions(s, c)[k]]
    decreases |s|
  {
    PositionsInRange(s, c);
    if |s| > 0 {
      var s' := s[..|s| - 1];
      PositionsSelect(s', c);
      PositionsInRange(s', c);
      var idx', idx := Positions(s', c), Positions(s, c);
      var r', r := Keep(s', c), Keep(s, c);
      forall k | 0 <= k < |idx|
        ensures r[k] == s[idx[k]]
      {
        if k < |idx'| {
          assert idx[k] == idx'[k] && r[k] == r'[k];
          assert s'[idx'[k]] == s[idx'[k]];
        }
      }
    }
  }

  lemma {:induction false} PositionsExact(s: seq<Pledge>, c: Criterion)
    ensures forall i :: 0 <= i < |s| ==> (Holds(c, s[i]) <==> i in Positions(s, c))
    decreases |s|
  {
    if |s| > 0 {
      var n := |s|;
      var s' := s[..n - 1];
      PositionsExact(s', c);
      PositionsInRange(s', c);
      var idx', idx := Positions(s', c), Positions(s, c);
      var tailIdx: seq<int> := if Holds(c, s[n - 1]) then [n - 1] else [];
      assert idx == idx' + tailIdx;
      forall i | 0 <= i < n
        ensures Holds(c, s[i]) <==> i in idx
      {
        if i < n - 1 {
          assert s'[i] == s[i];
        } else {
          assert i !in idx';
        }
      }
    }
  }

  lemma PositionsEnumerate(s: seq<Pledge>, c: Criterion)
    ensures EnumeratesMatches(s, c, Positions(s, c), Keep(s, c))
  {
    PositionsSelect(s, c);
    PositionsIncreasing(s, c);
    PositionsExact(s, c);
  }

  /** Every member of a strictly increasing list but its last lies below the last. */
  lemma IncreasingBelowLast(a: seq<int>, x: int)
    requires Increasing(a) && |a| > 0
    ensures x in a[..|a| - 1] ==> x < a[|a| - 1]
    ensures x in a ==> x <= a[|a| - 1]
  {
    if x in a {
      var i :| 0 <= i < |a| && a[i] == x;
    }
  }

  lemma HeadIsMember(a: seq<int>)
    requires |a| > 0
    ensures a[0] in a
  {
  }

  /** Two strictly increasing lists with the same members are equal. */
  lemma {:induction false} IncreasingUnique(a: seq<int>, b: seq<int>)
    requires Increasing(a) && Increasing(b)
    requires forall x :: x in a <==> x in b
    ensures a == b
    decreases |a|
  {
    if |a| == 0 && |b| > 0 {
      HeadIsMember(b);
      assert false;
    } else if |a| > 0 && |b| == 0 {
      HeadIsMember(a);
      assert false;
    } else if |a| > 0 {
      var ma, mb := a[|a| - 1], b[|b| - 1];
      IncreasingBelowLast(a, mb);
      IncreasingBelowLast(b, ma);
      assert ma == mb;
      var a', b' := a[..|a| - 1], b[..|b| - 1];
      forall x
        ensures x in a' <==> x in b'
      {
        IncreasingBelowLast(a, x);
        IncreasingBelowLast(b, x);
        assert a == a' + [ma];
        assert b == b' + [mb];
        if x in a' {
          assert x in a && x != mb;
        }
        if x in b' {
          assert x in b && x != ma;
        }
      }
      IncreasingUnique(a', b');
      assert a == a' + [ma];
      assert b == b' + [mb];
    }
  }

  /** `Keep` is exactly the in-order subsequence of matching records: a list
      is the result of `Keep` if and only if it lists the matching records
      at increasing positions. */
  lemma KeepIsMatchingSubsequence(s: seq<Pledge>, c: Criterion, r: seq<Pledge>)
    ensures r == Keep(s, c) <==> exists idx :: EnumeratesMatches(s, c, idx, r)
  {
    PositionsEnumerate(s, c);
    if idx :| EnumeratesMatches(s, c, idx, r) {
      var pos := Positions(s, c);
      forall x
        ensures x in idx <==> x in pos
      {
        if x in idx {
          var k :| 0 <= k < |idx| && idx[k] == x;
          assert Holds(c, s[x]);
        }
        if x in pos {
          var k :| 0 <= k < |pos| && pos[k] == x;
          assert Holds(c, s[x]);
        }
      }
      IncreasingUnique(idx, pos);
      var kept := Keep(s, c);
      assert |r| == |kept|;
      forall k | 0 <= k < |r|
        ensures r[k] == kept[k]
      {
      }
    }
  }
}

=== FILE: store.dfy ===
/** The pledge store: the persisted value under the storage key, the seeding
    done at startup, and the submit handler that validates a draft, builds
    the new record, pushes it and rewrites storage with the whole list. */
module Store {
  import opened Pledges
  import opened Wall

  /** What the browser's local storage holds under the key `climatePledges`,
      already decoded: nothing, or a list of records. */
  datatype Storage = Absent | Stored(pledges: seq<Pledge>)

  /** The widget's state: the in-memory list and what storage holds. */
  datatype App = App(pledges: seq<Pledge>, storage: Storage)

  /** Storage holds exactly the in-memory list. */
  predicate Synced(app: App)
  {
    app.storage == Stored(app.pledges)
  }

  /** Every record's id is ID_BASE + its position + 1. */
  predicate WellNumbered(s: seq<Pledge>)
  {
    forall i :: 0 <= i < |s| ==> s[i].id == ID_BASE + i + 1
  }

  /** Every record carries at least one commitment. */
  predicate AllCommitted(s: seq<Pledge>)
  {
    forall i :: 0 <= i < |s| ==> |s[i].commitments| >= 1
  }

  /** The three example records used when storage holds nothing. */
  const SEEDS: seq<Pledge> := [
    Pledge(1001, "Alex Johnson", "alex@example.com", "5550101", "Assam", STUDENT,
      ["Turn off lights when not in use", "Walk or bike for short trips", "Reduce single-use plastics"],
      "2023-06-10"),
    Pledge(1002, "Maria Garcia", "maria@example.com", "5550102", "Karnataka", WORKING_PROFESSIONAL,
      ["Use energy-efficient appliances", "Use public transportation weekly", "Recycle properly"],
      "2023-06-11"),
    Pledge(1003, "James Smith", "james@example.com", "5550103", "Manipur", OTHER,
      ["Set thermostat 1\U{00B0}C higher in summer", "Consider electric for next vehicle", "Compost food waste"],
      "2023-06-12")
  ]

  /** `JSON.parse(localStorage.getItem(key)) || []`: a missing entry reads as
      the empty list. */
  function Loaded(storage: Storage): (s: seq<Pledge>)
    ensures storage.Stored? ==> s == storage.pledges
    ensures storage.Absent? ==> s == []
  {
    match storage
    case Absent => []
    case Stored(s) => s
  }

  /** Startup: an empty or missing list is replaced by the seeds, which are
      written back; a non-empty list is used as stored and storage is left
      alone. Either way the widget starts with storage and memory in step
      and at least one record. */
  function Startup(storage: Storage): (app: App)
    ensures Synced(app)
    ensures 1 <= |app.pledges|
    ensures |Loaded(storage)| == 0 ==> app.pledges == SEEDS
    ensures |Loaded(storage)| > 0 ==> app.pledges == Loaded(storage) && app.storage == storage
  {
    var loaded := Loaded(storage);
    if |loaded| == 0 then App(SEEDS, Stored(SEEDS)) else App(loaded, storage)
  }

  /** Reloading the page after startup finds the same state again. */
  lemma StartupStable(storage: Storage)
    ensures Startup(Startup(storage).storage) == Startup(storage)
  {
  }

  lemma SeedsWellFormed()
    ensures |SEEDS| == 3
    ensures WellNumbered(SEEDS) && AllCommitted(SEEDS)
    ensures forall i :: 0 <= i < |SEEDS| ==> Stars(SEEDS[i]) == 3
  {
  }

  /** Why a submission was refused. */
  datatype SubmitError = NoCommitmentSelected

  /** The outcome of a submission: the new state and record, or why it was refused. */
  datatype SubmitResult = Ok(value: Submission) | Err(error: SubmitError)

  /** A successful submission: the new state and the record it created. */
  datatype Submission = Submission(app: App, pledge: Pledge)

  /** The record the submit handler builds from a draft, for a list that
      currently holds `count` records; `date` is the day's ISO date. */
  function NewPledge(draft: Draft, count: nat, date: string): (p: Pledge)
    ensures p.id == ID_BASE + count + 1
    ensures p.commitments == draft.commitments && p.date == date
    ensures p.name == draft.name && p.email == draft.email && p.phone == draft.phone
    ensures p.state == draft.state && p.profile == draft.profile
  {
    Pledge(ID_BASE + count + 1, draft.name, draft.email, draft.phone,
           draft.state, draft.profile, draft.commitments, date)
  }

  /** The submit handler: refuse a draft without commitments and change
      nothing; otherwise push the new record and write the whole list to
      storage. */
  function Submit(app: App, draft: Draft, date: string): (r: SubmitResult)
    ensures r.Err? <==> |draft.commitments| == 0
    ensures r.Ok? ==> var next := r.value.app.pledges;
      && |next| == |app.pledges| + 1
      && next[..|app.pledges|] == app.pledges
      && next[|app.pledges|] == r.value.pledge
      && r.value.pledge == NewPledge(draft, |app.pledges|, date)
      && r.value.pledge.id == ID_BASE + |app.pledges| + 1
      && r.value.pledge.commitments == draft.commitments
      && 1 <= Stars(r.value.pledge)
      && Synced(r.value.app)
  {
    if |draft.commitments| == 0 then
      Err(NoCommitmentSelected)
    else
      var p := NewPledge(draft, |app.pledges|, date);
      var pledges := app.pledges + [p];
      Ok(Submission(App(pledges, Stored(pledges)), p))
  }

  /** The state after one submit event, whether or not it was accepted. */
  function Step(app: App, draft: Draft, date: string): (next: App)
    ensures |draft.commitments| == 0 ==> next == app
    ensures |draft.commitments| > 0 ==> Synced(next) && next.pledges == app.pledges + [NewPledge(draft, |app.pledges|, date)]
  {
    match Submit(app, draft, date)
    case Ok(sub) => sub.app
    case Err(_) => app
  }

  /** An accepted submission keeps the ids in step with positions and every
      record committed. */
  lemma StepPreservesInvariants(app: App, draft: Draft, date: string)
    requires WellNumbered(app.pledges) && AllCommitted(app.pledges)
    ensures WellNumbered(Step(app, draft, date).pledges)
    ensures AllCommitted(Step(app, draft, date).pledges)
  {
  }

  /** Ids in step with positions are pairwise distinct. */
  lemma WellNumberedUnique(s: seq<Pledge>)
    requires WellNumbered(s)
    ensures forall i, j :: 0 <= i < j < |s| ==> s[i].id != s[j].id
  {
  }

  /** Every record of a fully committed list earns between one and five stars. */
  lemma CommittedStars(s: seq<Pledge>)
    requires AllCommitted(s)
    ensures forall i :: 0 <= i < |s| ==> 1 <= Stars(s[i]) <= MAX_STARS
  {
  }

  /** An accepted submission raises the total counter by one and the
      counter of the new record's profile by one. */
  lemma SubmitUpdatesKpis(app: App, draft: Draft, date: string)
    requires |draft.commitments| > 0
    ensures var after := ComputeKpis(Step(app, draft, date).pledges);
      && after.total == ComputeKpis(app.pledges).total + 1
      && after.students == ComputeKpis(app.pledges).students + (if draft.profile == STUDENT then 1 else 0)
      && after.professionals
         == ComputeKpis(app.pledges).professionals + (if draft.profile == WORKING_PROFESSIONAL then 1 else 0)
  {
    KpisAfterPush(app.pledges, NewPledge(draft, |app.pledges|, date));
  }

  /** After an accepted submission the wall is re-rendered with its
      defaults: page 1 of the whole list, new record last, whatever filters
      were selected before. */
  lemma SubmitShowsWholeList(app: App, draft: Draft, date: string)
    requires |draft.commitments| > 0
    ensures var w := Unfiltered(Step(app, draft, date).pledges);
      && w.page == 1
      && w.shown == app.pledges + [NewPledge(draft, |app.pledges|, date)]
      && w.shown == FilterPledges(Step(app, draft, date).pledges, ALL, ALL)
  {
  }

  /** One submit event: the draft and the date it was submitted on. */
  datatype Event = Event(draft: Draft, date: string)

  /** A session: start from what storage holds, then handle each submit in
      turn. */
  function Replay(app: App, events: seq<Event>): (final: App)
    decreases |events|
  {
    if |events| == 0 then app
    else Replay(Step(app, events[0].draft, events[0].date), events[1..])
  }

  /** The number of submissions among `events` that carry a commitment. */
  function Accepted(events: seq<Event>): (n: nat)
    ensures n <= |events|
  {
    if |events| == 0 then 0
    else (if |events[0].draft.commitments| > 0 then 1 else 0) + Accepted(events[1..])
  }

  /** Over any run of submissions the store only grows, by one record per
      accepted submission; earlier records never change; and storage ends
      in step with memory if it started so. */
  lemma {:induction false} ReplayAppendsOnly(app: App, events: seq<Event>)
    ensures |Replay(app, events).pledges| == |app.pledges| + Accepted(events)
    ensures Replay(app, events).pledges[..|app.pledges|] == app.pledges
    ensures Synced(app) ==> Synced(Replay(app, events))
    decreases |events|
  {
    if |events| > 0 {
      var next := Step(app, events[0].draft, events[0].date);
      ReplayAppendsOnly(next, events[1..]);
      var final := Replay(next, events[1..]).pledges;
      assert next.pledges[..|app.pledges|] == app.pledges;
      assert final[..|app.pledges|] == final[..|next.pledges|][..|app.pledges|];
    }
  }

  /** Over any run of submissions ids stay in step with positions (so they
      stay unique) and every record keeps at least one commitment. */
  lemma {:induction false} ReplayPreservesInvariants(app: App, events: seq<Event>)
    requires WellNumbered(app.pledges) && AllCommitted(app.pledges)
    ensures WellNumbered(Replay(app, events).pledges)
    ensures AllCommitted(Replay(app, events).pledges)
    decreases |events|
  {
    if |events| > 0 {
      StepPreservesInvariants(app, events[0].draft, events[0].date);
      ReplayPreservesInvariants(Step(app, events[0].draft, events[0].date), events[1..]);
    }
  }

  /** From empty storage, any session has unique, position-derived ids,
      storage in step with memory, and 3 + (accepted submissions) records. */
  lemma SessionFromEmptyStorage(events: seq<Event>)
    ensures var app := Replay(Startup(Absent), events);
      && |app.pledges| == 3 + Accepted(events)
      && app.pledges[..3] == SEEDS
      && WellNumbered(app.pledges)
      && AllCommitted(app.pledges)
      && Synced(app)
  {
    SeedsWellFormed();
    ReplayAppendsOnly(Startup(Absent), events);
    ReplayPreservesInvariants(Startup(Absent), events);
  }
}

=== FILE: wall.dfy ===
/** The pledge wall: the three counters, the profile/state filter, the page
    slice, the page count and the page buttons, plus the transient view state
    (which list is shown, at which page) that the UI events move between. */
module Wall {
  import opened Pledges
  import opened Selection

  /** Records per page of the wall. */
  const PAGE_SIZE: nat := 10

  datatype Kpis = Kpis(total: nat, students: nat, professionals: nat)

  /** The three counters: every pledge, those with profile `Student`, and
      those with profile `Working Professional`. */
  function ComputeKpis(s: seq<Pledge>): (k: Kpis)
    ensures k.total == |s|
    ensures k.students + k.professionals <= k.total
  {
    CountDisjoint(s, ProfileIs(STUDENT), ProfileIs(WORKING_PROFESSIONAL));
    Kpis(|s|, Count(s, ProfileIs(STUDENT)), Count(s, ProfileIs(WORKING_PROFESSIONAL)))
  }

  /** Pushing one pledge raises the total by one and exactly the counter of
      its own profile by one; a pledge of any other profile moves neither
      profile counter. */
  lemma KpisAfterPush(s: seq<Pledge>, p: Pledge)
    ensures ComputeKpis(s + [p]).total == ComputeKpis(s).total + 1
    ensures ComputeKpis(s + [p]).students
         == ComputeKpis(s).students + (if p.profile == STUDENT then 1 else 0)
    ensures ComputeKpis(s + [p]).professionals
         == ComputeKpis(s).professionals + (if p.profile == WORKING_PROFESSIONAL then 1 else 0)
  {
    KeepPush(s, p, ProfileIs(STUDENT));
    KeepPush(s, p, ProfileIs(WORKING_PROFESSIONAL));
  }

  /** The criterion one filter menu stands for: everything for `all`,
      otherwise an exact match. */
  function ProfileMenu(profileFilter: string): (c: Criterion)
  {
    if profileFilter == ALL then Any else ProfileIs(profileFilter)
  }

  function StateMenu(stateFilter: string): (c: Criterion)
  {
    if stateFilter == ALL then Any else StateIs(stateFilter)
  }

  /** A record passes both menus. */
  predicate Matches(p: Pledge, profileFilter: string, stateFilter: string)
  {
    && (profileFilter == ALL || p.profile == profileFilter)
    && (stateFilter == ALL || p.state == stateFilter)
  }

  /** The filter chain: narrow by profile unless that menu says `all`, then
      narrow the result by state unless that menu says `all`. */
  function FilterPledges(s: seq<Pledge>, profileFilter: string, stateFilter: string): (r: seq<Pledge>)
    ensures r == Keep(s, Both(ProfileMenu(profileFilter), StateMenu(stateFilter)))
    ensures forall x :: x in r <==> x in s && Matches(x, profileFilter, stateFilter)
    ensures profileFilter == ALL && stateFilter == ALL ==> r == s
  {
    var byProfile := if profileFilter != ALL then Keep(s, ProfileIs(profileFilter)) else s;
    var byState := if stateFilter != ALL then Keep(byProfile, StateIs(stateFilter)) else byProfile;
    KeepAny(s);
    KeepAny(byProfile);
    KeepChain(s, ProfileMenu(profileFilter), StateMenu(stateFilter));
    byState
  }

  /** Applying the same filters to an already filtered list changes nothing. */
  lemma FilterIdempotent(s: seq<Pledge>, profileFilter: string, stateFilter: string)
    ensures FilterPledges(FilterPledges(s, profileFilter, stateFilter), profileFilter, stateFilter)
         == FilterPledges(s, profileFilter, stateFilter)
  {
    KeepIdempotent(s, Both(ProfileMenu(profileFilter), StateMenu(stateFilter)));
  }

  /** The filtered list is the in-order subsequence of the records that pass
      both menus: a list is the filter's result if and only if it lists, at
      strictly increasing positions of `s`, exactly the matching records. */
  lemma FilterIsMatchingSubsequence(s: seq<Pledge>, profileFilter: string, stateFilter: string, r: seq<Pledge>)
    ensures r == FilterPledges(s, profileFilter, stateFilter)
        <==> exists idx :: EnumeratesMatches(s, Both(ProfileMenu(profileFilter), StateMenu(stateFilter)), idx, r)
  {
    KeepIsMatchingSubsequence(s, Both(ProfileMenu(profileFilter), StateMenu(stateFilter)), r);
  }

  /** Where `Array.prototype.slice` puts a bound `i` on a list of length `n`:
      a negative bound counts from the end, and both are clamped to `[0, n]`. */
  function SliceBound(i: int, n: nat): (b: nat)
    ensures b <= n
    ensures 0 <= i ==> b == Min(i, n)
  {
    if i < 0 then (if n + i < 0 then 0 else n + i) else Min(i, n)
  }

  /** `s.slice(start, end)`; empty when the clamped bounds cross. */
  function JsSlice(s: seq<Pledge>, start: int, end: int): (r: seq<Pledge>)
    ensures |r| <= |s|
    ensures 0 <= start <= end ==> r == s[Min(start, |s|)..Min(end, |s|)]
  {
    var from, to := SliceBound(start, |s|), SliceBound(end, |s|);
    if from < to then s[from..to] else []
  }

  /** `Math.ceil(n / 10)`. */
  function TotalPages(n: nat): (t: nat)
    ensures n <= t * PAGE_SIZE
    ensures t > 0 ==> (t - 1) * PAGE_SIZE < n
    ensures t == 0 <==> n == 0
  {
    (n + PAGE_SIZE - 1) / PAGE_SIZE
  }

  /** The records shown on page `page` (counted from 1) of `s`: the slice
      from `(page - 1) * 10` up to ten further records. Any integer is
      accepted, with the slice's own treatment of negative bounds. */
  function Page(s: seq<Pledge>, page: int): (r: seq<Pledge>)
    ensures |r| <= PAGE_SIZE
    ensures page >= 1 ==> r == s[Min((page - 1) * PAGE_SIZE, |s|)..Min(page * PAGE_SIZE, |s|)]
    ensures page >= 1 ==> forall k :: 0 <= k < |r| ==> r[k] == s[(page - 1) * PAGE_SIZE + k]
    ensures page > TotalPages(|s|) ==> r == []
    ensures 1 <= page <= TotalPages(|s|) ==> 1 <= |r|
    ensures 1 <= page < TotalPages(|s|) ==> |r| == PAGE_SIZE
  {
    var start := (page - 1) * PAGE_SIZE;
    JsSlice(s, start, start + PAGE_SIZE)
  }

  /** Pages 1 to `k`, laid end to end. */
  function PagesUpTo(s: seq<Pledge>, k: nat): (r: seq<Pledge>)
  {
    if k == 0 then [] else PagesUpTo(s, k - 1) + Page(s, k)
  }

  /** The first `k` pages together are the first `10 * k` records. */
  lemma {:induction false} PagesUpToPrefix(s: seq<Pledge>, k: nat)
    ensures PagesUpTo(s, k) == s[..Min(k * PAGE_SIZE, |s|)]
  {
    if k > 0 {
      PagesUpToPrefix(s, k - 1);
      var a, b := Min((k - 1) * PAGE_SIZE, |s|), Min(k * PAGE_SIZE, |s|);
      assert s[..a] + s[a..b] == s[..b];
    }
  }

  /** Walking every page from 1 to `TotalPages` shows every record exactly
      once, in order. */
  lemma AllPagesRebuildList(s: seq<Pledge>)
    ensures PagesUpTo(s, TotalPages(|s|)) == s
  {
    PagesUpToPrefix(s, TotalPages(|s|));
  }

  /** One pagination button: its number and whether it is the active page. */
  datatype PageButton = PageButton(number: nat, active: bool)

  /** The button row: none at all for one page or fewer, otherwise one
      button per page labelled 1 to `totalPages`, with the current page
      marked active. */
  method RenderPagination(totalPages: nat, page: int) returns (buttons: seq<PageButton>)
    ensures totalPages <= 1 ==> buttons == []
    ensures totalPages > 1 ==> |buttons| == totalPages
    ensures forall k :: 0 <= k < |buttons| ==> buttons[k].number == k + 1
    ensures forall k :: 0 <= k < |buttons| ==> (buttons[k].active <==> k + 1 == page)
  {
    buttons := [];
    if totalPages > 1 {
      var i := 1;
      while i <= totalPages
        invariant 1 <= i <= totalPages + 1
        invariant |buttons| == i - 1
        invariant forall k :: 0 <= k < |buttons| ==> buttons[k].number == k + 1
        invariant forall k :: 0 <= k < |buttons| ==> (buttons[k].active <==> k + 1 == page)
      {
        buttons := buttons + [PageButton(i, i == page)];
        i := i + 1;
      }
    }
  }

  /** One table row of the wall. */
  datatype Row = Row(id: nat, name: string, date: string, state: string, profile: string, stars: string)

  function RowOf(p: Pledge): (row: Row)
    ensures row.id == p.id && row.name == p.name && row.date == p.date
    ensures row.state == p.state && row.profile == p.profile
    ensures row.stars == StarText(p) && |row.stars| == Stars(p)
  {
    Row(p.id, p.name, p.date, p.state, p.profile, StarText(p))
  }

  /** What one rendering of the wall shows. */
  datatype Rendering = Rendering(rows: seq<Row>, buttons: seq<PageButton>)

  /** `renderPledgeWall(list, page)`: one row per record on the page, in
      order, then the button row for the list's page count. */
  method RenderPledgeWall(shown: seq<Pledge>, page: int) returns (view: Rendering)
    ensures |view.rows| == |Page(shown, page)| <= PAGE_SIZE
    ensures page >= 1 ==> forall k :: 0 <= k < |view.rows| ==>
      view.rows[k] == RowOf(shown[(page - 1) * PAGE_SIZE + k])
    ensures page > TotalPages(|shown|) ==> view.rows == []
    ensures TotalPages(|shown|) > 1 <==> |view.buttons| > 0
    ensures |view.buttons| > 0 ==> |view.buttons| == TotalPages(|shown|)
    ensures forall k :: 0 <= k < |view.buttons| ==> view.buttons[k].number == k + 1
    ensures forall k :: 0 <= k < |view.buttons| ==> (view.buttons[k].active <==> k + 1 == page)
  {
    var onPage := Page(shown, page);
    var rows: seq<Row> := [];
    var i := 0;
    while i < |onPage|
      invariant 0 <= i <= |onPage|
      invariant |rows| == i
      invariant forall k :: 0 <= k < i ==> rows[k] == RowOf(onPage[k])
    {
      rows := rows + [RowOf(onPage[i])];
      i := i + 1;
    }
    var buttons := RenderPagination(TotalPages(|shown|), page);
    view := Rendering(rows, buttons);
  }

  /** Which list the wall is showing and at which page. The page buttons of
      a rendering re-render the list they were created for, so the shown
      list is part of the state. */
  datatype WallState = WallState(shown: seq<Pledge>, page: int)

  /** Changing either filter menu shows the filtered list from page 1. */
  function OnFilterChange(all: seq<Pledge>, profileFilter: string, stateFilter: string): (w: WallState)
    ensures w.page == 1
    ensures w.shown == FilterPledges(all, profileFilter, stateFilter)
    ensures exists idx :: EnumeratesMatches(all, Both(ProfileMenu(profileFilter), StateMenu(stateFilter)), idx, w.shown)
    ensures forall x :: x in w.shown <==> x in all && Matches(x, profileFilter, stateFilter)
  {
    FilterIsMatchingSubsequence(all, profileFilter, stateFilter, FilterPledges(all, profileFilter, stateFilter));
    WallState(FilterPledges(all, profileFilter, stateFilter), 1)
  }

  /** Button `number` re-renders the same list at that page; buttons exist
      only for pages 1 to `TotalPages`, so the page reached is never empty. */
  function OnPageClick(w: WallState, number: nat): (w': WallState)
    requires 1 <= number <= TotalPages(|w.shown|)
    ensures w'.shown == w.shown && w'.page == number
    ensures 1 <= |Page(w'.shown, w'.page)| <= PAGE_SIZE
  {
    WallState(w.shown, number)
  }

  /** `renderPledgeWall()` with its default arguments, as called at startup
      and after a submission: the whole unfiltered list at page 1, whatever
      filters were selected before. */
  function Unfiltered(all: seq<Pledge>): (w: WallState)
    ensures w.page == 1 && w.shown == FilterPledges(all, ALL, ALL)
  {
    WallState(all, 1)
  }
}
